=== FILE: README.md ===
# DNS query and TCPing tool — a Dafny model

The tool (`main.go`) resolves one domain against each DNS server in a
comma-separated list, timing each query. It then probes the resolved
address with up to four TCP connections to port 80 (stopping at the first
refused one) and prints the average connect time or the error. This project models the deterministic decisions the tool makes
around that network I/O, and proves properties of them:

- **argument handling**: the check for the required `-d` and `-s` flags,
  the comma split of the server list, and the choice of address length
  from `-t` (module `Cli`);
- **`lookupIP`**: the first address of the requested byte length among the
  resolver's answers, or its error, or "no matching IP found". This
  includes the text `ip.String()` gives for that address (modules `Lookup`
  and `IpText`);
- **`tcping`**: the destination formatting (brackets around IPv6
  literals), and a fail-fast loop of at most four dials with a 600 ms
  pause only between attempts. On full success the average is the
  truncated quarter of the summed durations (module `Probe`, with
  `HostPort` for the `host:port` text);
- **the per-server loop**: servers in list order. A failed lookup gives
  one error line. A successful one gives the query time, the address, the
  probe's outcome and a blank line (module `Driver`).

Every network result and clock reading is an oracle input. The resolver's
answer is a list of raw addresses (`seq<byte>`) or an error. The query time
is a number of nanoseconds. Each of the four dials is `Connected(nanos)` or
`Refused(error)`. A run is a list of events: the lines printed and the
network actions taken (query, dial, pause), in order.

A few consequences of the code are proved along the way:

- Without `-t 6`, no destination is ever bracketed.
- With `-t 6`, a 16-byte answer that carries an IPv4 address
  (`::ffff:a.b.c.d`) is printed and dialled in dotted form, without
  brackets.
- The resolver's dialer uses `server + ":53"` as written (main.go:81). A
  host name, an IPv4 server, or a bracketed IPv6 server (`[::1]`) is read
  back correctly. For a bare IPv6 literal (`::1`) the dialer rejects the
  address ("too many colons"), so every DNS query sent through that
  server's dialer fails. Answers the resolver gives without dialling are
  not covered by this.
- Only a `-t` value of exactly `"6"` selects IPv6 (main.go:47-51). Every
  other value selects IPv4.
- An empty resolver list gives "no matching IP found" (main.go:90-96). A
  resolver error is passed through unchanged (main.go:86-88).

## Model

| member | source | states |
|---|---|---|
| `Cli.Configure` | main.go:31-51 | missing `-d` or `-s` (empty) gives the usage error and nothing else; otherwise the domain is kept, the server list is comma-free pieces that join back to `-s`, and the address length is 16 exactly when `-t` is "6" and 4 otherwise |
| `Cli.ServerCount` | main.go:44 | the number of servers is the number of commas in `-s` plus one (empty pieces kept) |
| `Cli.ServersAreThePieces` | main.go:44 | any comma-free pieces that join to `-s` are exactly the server list, in order |
| `Cli.AddressLength` | main.go:46-51 | the address length is 16 exactly when `-t` is "6", and 4 for every other value, including the default "4" |
| `Text.Split` | main.go:44 | `strings.Split` on ",": at least one piece, no piece contains the separator, and joining the pieces gives the input back |
| `Text.SplitLength` | main.go:44 | splitting gives one piece more than there are separators |
| `Text.SplitJoin` | main.go:44 | splitting undoes joining whenever no piece contains the separator |
| `Text.DecimalRoundTrip` | main.go:103-106 | the decimal text written for the port (and for address fields) reads back as the same number |
| `Lookup.FirstOfLength` | main.go:90-94 | the index found has the requested byte length and every earlier address does not; when none has it, no address in the list does |
| `Lookup.LookupIP` | main.go:85-96 | a resolver error passes through unchanged; otherwise the result is "no matching IP found" exactly when no address has the requested length, and else the text of the first address that has it |
| `Lookup.FirstOfLengthUnique` | main.go:90-94 | the loop stops at the only index whose address has the requested length and follows none that does |
| `Lookup.LookupPicksFirst` | main.go:90-94 | whichever address is first of the requested length, its text is what `lookupIP` returns |
| `Lookup.LookupTextColon` | main.go:90-94 | the returned text contains a colon exactly when 16 bytes were requested and the chosen address is not IPv4 carried in IPv6 |
| `Lookup.ResolverAddress` | main.go:81 | the resolver's dial address is the server text followed by ":53", with no brackets added; what the dialer reads back from it is stated by the three lemmas below |
| `Lookup.ResolverAddressPlain` | main.go:81 | for a host name or IPv4 server the dialer reads back that server and port 53 |
| `Lookup.ResolverAddressBracketed` | main.go:81 | for a server written `[h]` the dialer reads back `h` and port 53 |
| `Lookup.ResolverAddressBareIPv6` | main.go:81 | a server containing a colon but no bracket gives an address the dialer rejects |
| `IpText.String` | main.go:92 | Go's `net.IP.String`; its properties are carried by `IpText.V6Layout`, `IpText.CompressedRun`, `IpText.StringHasColon`, `IpText.StringHasNoBrackets` and `IpText.DottedRoundTrip` |
| `IpText.CompressedRun` | main.go:92 | the run written as `::` is the first of the longest runs of two or more zero groups, or none when no such run exists |
| `IpText.V6Layout` | main.go:92 | for a 16-byte address that is not IPv4 carried in IPv6, the text is the eight groups in hexadecimal joined by colons when there is no run to compress, and otherwise the groups before the chosen run, `::`, and the groups after it |
| `IpText.StringHasColon` | main.go:92 | the address text contains a colon exactly for a 16-byte address that is not IPv4 carried in IPv6 |
| `IpText.StringHasNoBrackets` | main.go:92 | address text never contains `[` or `]` |
| `IpText.DottedRoundTrip` | main.go:92 | the dotted text of a 4-byte address, or of IPv4 carried in 16 bytes, reads back as the four IPv4 bytes |
| `HostPort.Join` | main.go:100-107 | the destination ends with a colon and the port's decimal text; before that comes the host unchanged, enclosed in brackets exactly when it contains a colon |
| `HostPort.SplitJoin` | main.go:100-107 | for every host without brackets, the dialer's host/port reading of the destination gives back exactly that host and the port's decimal text |
| `Probe.Probe` | main.go:109-127 | the fail-fast reference probe: stop at the first refused dial with its error, otherwise the truncated average of four durations; its properties are carried by `Probe.ProbeTraceShape`, `Probe.ProbeFailFast`, `Probe.ProbeSuccess` and `Probe.ProbeFailsIffRefused`, and `Probe.Tcping` is shown equal to it |
| `Probe.FirstFailure` | main.go:112-117 | the index found is a refused dial and every earlier dial connected; when none is found every dial connected |
| `Probe.Tcping` | main.go:99-131 | the loop as written, with its running sum and trace, yields the same result and the same dials and pauses as the fail-fast reference probe |
| `Probe.ProbeTraceShape` | main.go:112-125 | the probe's events alternate dial, pause, dial, … to the formatted destination, starting and ending with a dial, with one dial per attempt made (the failing one, 1-based, or 4) |
| `Probe.ProbeFailFast` | main.go:112-117 | the first refused dial, at attempt k, ends the probe with that dial's error after exactly k+1 ≤ 4 dials and k pauses |
| `Probe.ProbeSuccess` | main.go:109-127 | when all four dials connect: four dials, three pauses, and an average `a` with 4a ≤ sum of the four durations < 4a + 4 (truncating division) |
| `Probe.ProbeFailsIffRefused` | main.go:112-117 | the probe fails exactly when some dial is refused |
| `Probe.ExampleAverage` | main.go:127 | connections of 10, 12, 11 and 13 ms average 11.5 ms before rounding |
| `Probe.ExampleThirdRefused` | main.go:112-117 | a refused third attempt returns its error after three dials, with no fourth |
| `Driver.Pass` | main.go:58-72 | one server's lines and actions given what `lookupIP` returned; its shape is stated by `Driver.FailedBlock` and `Driver.AnsweredBlock` |
| `Driver.ServerBlock` | main.go:54-72 | one server's pass, with `lookupIP` applied to the resolver's answer; its shape is stated by `Driver.ServerBlockShape` |
| `Driver.FailedBlock` | main.go:58-61 | a failed lookup produces just the query and one error line naming domain, server and error: no dial and no blank line |
| `Driver.AnsweredBlock` | main.go:62-72 | a successful lookup produces the query time and the address first; then exactly the trace of the probe of `ip` joined with port 80, so every dial goes to that destination; then the line for that probe's result (average or error) and the blank line; no error line, and one to four dials |
| `Driver.ServerBlockShape` | main.go:53-72 | every server's pass starts with the query to that server and queries no other server; a failed lookup gives just its error line; an answered one holds exactly the probe of `lookupIP`'s text joined with port 80 and that probe's result line, with every dial going to that destination |
| `Driver.ServerBlockTally` | main.go:53-72 | each pass queries its own server and adds one error line, or else one blank line and at most four dials |
| `Driver.Passes` | main.go:53-73 | the passes over the servers from index i on, in list order; stated by `Driver.PassesQueryInOrder` and `Driver.PassesCounts` |
| `Driver.PassesQueryInOrder` | main.go:53-55 | the passes from server i onward query exactly the remaining servers, in list order |
| `Driver.PassesCounts` | main.go:53-72 | from server i onward: one blank line per answered server, one error line per other server, at most four dials per answered server |
| `Driver.Run` | main.go:30-73 | a whole run on the given flags; stated by `Driver.RunMissingParameters`, `Driver.RunQueriesInOrder`, `Driver.RunCounts` and `Driver.RunIPv4Unbracketed` |
| `Driver.RunMissingParameters` | main.go:38-42 | the status is 1 exactly when `-d` or `-s` is missing, and 0 otherwise; a missing flag gives only the usage text, with no query and no dial |
| `Driver.RunQueriesInOrder` | main.go:44-55 | a run queries exactly the servers obtained by splitting `-s` on commas, in that order |
| `Driver.RunCounts` | main.go:53-72 | a run prints one blank line per answered server and one error line per other server, and dials at most four times per answered server |
| `Driver.ProbeDestination` | main.go:66 | the destination built from the text `lookupIP` returned and port 80 reads back as that text and "80"; it is bracketed exactly when a 16-byte address that is not IPv4 carried in IPv6 was selected |
| `Driver.DestinationBracketed` | main.go:100-107 | a host without `[` is bracketed in the destination exactly when it contains a colon |
| `Driver.RunIPv4Unbracketed` | main.go:47-51 | unless `-t` is "6", no destination the run dials is bracketed |

## Left out

- The DNS exchange: the `net.Resolver` with its custom UDP dialer and `LookupIP` (main.go:77-85) is library network I/O. Its answer or error is an input. Only the dial address `server + ":53"` is modelled.
- Answers the Go resolver gives without dialling: an IP-literal domain is returned as its parsed address, and names in the hosts file are answered locally. The model does not tie the answer to the domain, so it neither excludes nor predicts these. A `Resolve` event records that a lookup was made through the server's dialer, not that a datagram was sent.
- TCP dialing with its 5-second timeout, closing the connection, `time.Now`/`time.Since` and `time.Sleep` (main.go:54-56, 113-123) are I/O and clock operations. Dial outcomes and measured durations are inputs. A sleep is a `Pause(600)` event. Closing the connection after each dial is not recorded.
- The float64 rounding to two decimal places (main.go:128) and the `%.2f` printing (main.go:70) are floating-point numerics. The model stops at the integer average in nanoseconds.
- The `%v` text of the query duration (main.go:63), the usage banner (main.go:14-28), the `flag` package and `os.Exit` are presentation and library plumbing. The usage output is one `UsageShown` event, and the exit status is a returned number.
- Durations are unbounded non-negative integers, because the monotonic clock never goes backwards. The int64 wrap of the sum would need attempts lasting decades, so it is not modelled.
- `Probe.Tcping`: its contract speaks of the reference `Probe.Probe`, and the fail-fast properties are stated as lemmas about that reference rather than repeated on the method.
- Go's `SplitHostPort` is modelled with every error collapsed to one failure value. The distinct error messages are not kept.

=== FILE: cli.dfy ===
/**
  Argument handling of `main` (main.go:31-51): the flag values after
  `flag.Parse`, the check for the two required flags, the comma split of the
  server list and the choice of address length from `-t`.
 */
module Cli {
  import opened Common
  import Text
  import IpText

  /** The values of `-d`, `-s` and `-t` after parsing; an absent flag holds its default. */
  datatype Flags = Flags(domain: string, servers: string, queryType: string)

  /** Defaults of the three flags: `-d` and `-s` empty, `-t` "4". */
  const DefaultDomain: string := ""
  const DefaultServers: string := ""
  const DefaultQueryType: string := "4"

  /** What the per-server loop works from. */
  datatype Config = Config(domain: string, servers: seq<string>, addressLength: nat)

  /** `-t 6` asks for 16-byte addresses; every other value for 4-byte ones. */
  function AddressLength(queryType: string): (n: nat)
    ensures n == IpText.IPv6Len || n == IpText.IPv4Len
    ensures n == IpText.IPv6Len <==> queryType == "6"
    ensures queryType == DefaultQueryType ==> n == IpText.IPv4Len
  {
    if queryType == "6" then IpText.IPv6Len else IpText.IPv4Len
  }

  /** `None` is the usage error; otherwise the server list is `-s` split on
      commas, every piece kept in order, and the length follows `-t`. */
  function Configure(f: Flags): (c: Option<Config>)
    ensures c.None? <==> f.domain == DefaultDomain || f.servers == DefaultServers
    ensures c.Some? ==> c.value.domain == f.domain
    ensures c.Some? ==> |c.value.servers| >= 1 && Text.Join(c.value.servers, ',') == f.servers
    ensures c.Some? ==> forall i :: 0 <= i < |c.value.servers| ==> ',' !in c.value.servers[i]
    ensures c.Some? ==> (c.value.addressLength == IpText.IPv6Len <==> f.queryType == "6")
    ensures c.Some? ==> (c.value.addressLength == IpText.IPv4Len <==> f.queryType != "6")
  {
    if f.domain == "" || f.servers == "" then None
    else Some(Config(f.domain, Text.Split(f.servers, ','), AddressLength(f.queryType)))
  }

  /** One server per comma-separated piece: one more than the number of commas. */
  lemma ServerCount(f: Flags)
    requires Configure(f).Some?
    ensures |Configure(f).value.servers| == Text.Occurrences(f.servers, ',') + 1
  {
    Text.SplitLength(f.servers, ',');
  }

  /** The server list is exactly the comma-free pieces that join back to `-s`. */
  lemma ServersAreThePieces(f: Flags, pieces: seq<string>)
    requires f.domain != "" && |pieces| >= 1
    requires forall i :: 0 <= i < |pieces| ==> ',' !in pieces[i]
    requires f.servers == Text.Join(pieces, ',') != ""
    ensures Configure(f) == Some(Config(f.domain, pieces, AddressLength(f.queryType)))
  {
    Text.SplitJoin(pieces, ',');
  }
}

=== FILE: common.dfy ===
/**
  Values shared by every part of the DNS query and TCPing tool: raw address
  bytes, the errors the tool passes around, a Result for Go's `(value, error)`
  pairs, and the events a run produces (lines it prints and the network or
  clock actions it takes), in the order it produces them.
 */
module Common {

  /** One byte of a raw IP address (Go's `net.IP` is a `[]byte`). */
  type byte = x: int | 0 <= x < 256

  /** Raw address bytes as the resolver returns them: 4 for IPv4, 16 for IPv6. */
  type Address = seq<byte>

  /** The errors the tool handles. `NoMatchingIP` is the one `lookupIP`
      creates itself; every error of the resolver or of a TCP dial is an
      opaque `Io` value carrying its message. */
  datatype Error = NoMatchingIP | Io(detail: string)
  {
    /** The text `%v` prints for the error. */
    function Message(): string
    {
      match this
      case NoMatchingIP => "no matching IP found"
      case Io(d) => d
    }
  }

  /** Go's `(value, error)` return pair: exactly one side is meaningful. */
  datatype Result<+T> = Ok(value: T) | Err(error: Error)

  datatype Option<+T> = None | Some(value: T)

  /** What a run does, in order. Printed lines and network actions share one trace. */
  datatype Event =
    | UsageShown                                   // "Error: Missing required parameters" and the usage text
    | Resolve(server: string, address: string)     // a lookup whose dialer targets `address`
    | QueryFailed(domain: string, server: string, error: Error)
    | QueryTime(server: string, nanos: nat)        // "DNS Server: <server>, Query time: <duration>"
    | Resolved(ip: string)                         // "IP: <ip>"
    | Dial(address: string)                        // one TCP connection attempt (connection closed at once)
    | Pause(millis: nat)                           // a sleep between two attempts
    | ProbeFailed(error: Error)                    // "TCPing error: <error>"
    | ProbeAverage(nanos: nat)                     // "Average TCPing time: ..." before rounding
    | Separator                                    // the blank line ending a server's block

  /** The constructor of an event, without its payload. */
  datatype Tag =
    | UsageTag | ResolveTag | QueryFailedTag | QueryTimeTag | ResolvedTag
    | DialTag | PauseTag | ProbeFailedTag | ProbeAverageTag | SeparatorTag

  function TagOf(e: Event): Tag
  {
    match e
    case UsageShown => UsageTag
    case Resolve(_, _) => ResolveTag
    case QueryFailed(_, _, _) => QueryFailedTag
    case QueryTime(_, _) => QueryTimeTag
    case Resolved(_) => ResolvedTag
    case Dial(_) => DialTag
    case Pause(_) => PauseTag
    case ProbeFailed(_) => ProbeFailedTag
    case ProbeAverage(_) => ProbeAverageTag
    case Separator => SeparatorTag
  }

  /** Number of events of kind `tag` in `trace`. */
  function Count(trace: seq<Event>, tag: Tag): nat
    decreases |trace|
  {
    if |trace| == 0 then 0
    else (if TagOf(trace[0]) == tag then 1 else 0) + Count(trace[1..], tag)
  }

  /** Counting distributes over concatenation of traces. */
  lemma {:induction false} CountConcat(a: seq<Event>, b: seq<Event>, tag: Tag)
    ensures Count(a + b, tag) == Count(a, tag) + Count(b, tag)
    decreases |a|
  {
    if |a| == 0 {
      assert a + b == b;
    } else {
      assert (a + b)[1..] == a[1..] + b;
      CountConcat(a[1..], b, tag);
    }
  }

  /** No event of kind `tag` occurs exactly when the count is zero. */
  lemma {:induction false} CountZero(trace: seq<Event>, tag: Tag)
    ensures Count(trace, tag) == 0 <==> forall i :: 0 <= i < |trace| ==> TagOf(trace[i]) != tag
    decreases |trace|
  {
    if |trace| > 0 {
      CountZero(trace[1..], tag);
      assert forall i :: 1 <= i < |trace| ==> trace[i] == trace[1..][i - 1];
    }
  }

  lemma CountParts(a: seq<Event>, b: seq<Event>, c: seq<Event>, tag: Tag)
    ensures Count(a + b + c, tag) == Count(a, tag) + Count(b, tag) + Count(c, tag)
  {
    CountConcat(a + b, c, tag);
    CountConcat(a, b, tag);
  }

  lemma CountSingle(e: Event, tag: Tag)
    ensures Count([e], tag) == (if TagOf(e) == tag then 1 else 0)
  {
    assert [e][1..] == [];
  }

  /** The servers queried, in the order their queries were sent. */
  function Queried(trace: seq<Event>): seq<string>
    decreases |trace|
  {
    if |trace| == 0 then []
    else (if trace[0].Resolve? then [trace[0].server] else []) + Queried(trace[1..])
  }

  lemma {:induction false} QueriedConcat(a: seq<Event>, b: seq<Event>)
    ensures Queried(a + b) == Queried(a) + Queried(b)
    decreases |a|
  {
    if |a| == 0 {
      assert a + b == b;
    } else {
      assert (a + b)[1..] == a[1..] + b;
      QueriedConcat(a[1..], b);
    }
  }

  /** A trace without queries names no server. */
  lemma {:induction false} QueriedNone(trace: seq<Event>)
    requires Count(trace, ResolveTag) == 0
    ensures Queried(trace) == []
    decreases |trace|
  {
    if |trace| > 0 {
      QueriedNone(trace[1..]);
    }
  }
}

=== FILE: driver.dfy ===
/**
  The body of `main` after argument handling (main.go:38-73): servers are
  handled one at a time in list order. For each, the resolver is queried;
  a failed lookup prints one error line and nothing else; a successful one
  prints the query time and address, probes the address on port 80, prints
  the probe's average or error, and ends with a blank line. Missing `-d`
  or `-s` ends the run with the usage text and status 1 before any query.
 */
module Driver {
  import opened Common
  import Text
  import IpText
  import HostPort
  import Cli
  import Lookup
  import Probe

  /** What the network and the clock do while one server is handled: the
      resolver's answer, the query time `time.Since` measured, and the
      outcome of each probe dial. */
  datatype ServerWorld = ServerWorld(answer: Result<seq<Address>>, queryNanos: nat, dials: Probe.DialScript)

  datatype Exit = Exit(status: nat, trace: seq<Event>)

  /** The events of one server's pass, given what `lookupIP` returned. */
  function Pass(domain: string, server: string, lookup: Result<string>, queryNanos: nat, dials: Probe.DialScript): seq<Event>
  {
    var query := Resolve(server, Lookup.ResolverAddress(server));
    match lookup
    case Err(e) => [query, QueryFailed(domain, server, e)]
    case Ok(ip) =>
      var p := Probe.Probe(HostPort.Join(ip, Probe.Port), dials);
      [query, QueryTime(server, queryNanos), Resolved(ip)] + p.trace + [OutcomeLine(p.result), Separator]
  }

  /** The events of one server's pass. */
  function ServerBlock(domain: string, server: string, want: nat, w: ServerWorld): seq<Event>
  {
    Pass(domain, server, Lookup.LookupIP(w.answer, want), w.queryNanos, w.dials)
  }

  /** The line printed for the probe's result. */
  function OutcomeLine(r: Result<nat>): Event
  {
    match r
    case Ok(average) => ProbeAverage(average)
    case Err(e) => ProbeFailed(e)
  }

  /** The passes over servers `i` onwards. */
  function Passes(c: Cli.Config, world: seq<ServerWorld>, i: nat): seq<Event>
    requires |world| >= |c.servers| && i <= |c.servers|
    decreases |c.servers| - i
  {
    if i == |c.servers| then []
    else ServerBlock(c.domain, c.servers[i], c.addressLength, world[i]) + Passes(c, world, i + 1)
  }

  /** A whole run of the tool on the given flags. */
  function Run(f: Cli.Flags, world: seq<ServerWorld>): Exit
    requires Cli.Configure(f).Some? ==> |world| >= |Cli.Configure(f).value.servers|
  {
    match Cli.Configure(f)
    case None => Exit(1, [UsageShown])
    case Some(c) => Exit(0, Passes(c, world, 0))
  }

  /** Number of servers from `i` on whose lookup succeeds. */
  function Answered(c: Cli.Config, world: seq<ServerWorld>, i: nat): nat
    requires |world| >= |c.servers| && i <= |c.servers|
    decreases |c.servers| - i
  {
    if i == |c.servers| then 0
    else (if Lookup.LookupIP(world[i].answer, c.addressLength).Ok? then 1 else 0) + Answered(c, world, i + 1)
  }

  /** Only the query at the head of an answered pass names a server. */
  lemma AnsweredBlockQueried(query: Event, head: seq<Event>, trace: seq<Event>, address: string, tail: seq<Event>)
    requires query.Resolve? && |head| == 3 && head[0] == query
    requires !head[1].Resolve? && !head[2].Resolve?
    requires |tail| == 2 && !tail[0].Resolve? && !tail[1].Resolve?
    requires Probe.Alternating(trace, address)
    ensures Queried(head + trace + tail) == [query.server]
  {
    Probe.AlternatingCounts(trace, address);
    CountZero(head[1..], ResolveTag);
    QueriedNone(head[1..]);
    CountZero(tail, ResolveTag);
    QueriedNone(tail);
    QueriedNone(trace);
    QueriedConcat(head + trace, tail);
    QueriedConcat(head, trace);
  }

  /** The error lines, blank lines and dials of an answered pass. */
  lemma AnsweredBlockCounts(head: seq<Event>, trace: seq<Event>, address: string, tail: seq<Event>)
    requires |head| == 3
    requires TagOf(head[0]) == ResolveTag && TagOf(head[1]) == QueryTimeTag && TagOf(head[2]) == ResolvedTag
    requires |tail| == 2 && tail[1] == Separator
    requires TagOf(tail[0]) == ProbeAverageTag || TagOf(tail[0]) == ProbeFailedTag
    requires Probe.Alternating(trace, address)
    ensures Count(head + trace + tail, QueryFailedTag) == 0
    ensures Count(head + trace + tail, SeparatorTag) == 1
    ensures Count(head + trace + tail, DialTag) == Count(trace, DialTag)
  {
    Probe.AlternatingCounts(trace, address);
    CountZero(head, QueryFailedTag);
    CountZero(head, SeparatorTag);
    CountZero(head, DialTag);
    CountZero(tail, QueryFailedTag);
    CountZero(tail, DialTag);
    CountConcat([tail[0]], [tail[1]], SeparatorTag);
    CountSingle(tail[0], SeparatorTag);
    CountSingle(tail[1], SeparatorTag);
    assert [tail[0]] + [tail[1]] == tail;
    CountParts(head, trace, tail, QueryFailedTag);
    CountParts(head, trace, tail, SeparatorTag);
    CountParts(head, trace, tail, DialTag);
  }

  /** A failed lookup: the query, one error line, nothing else. */
  lemma FailedBlock(domain: string, server: string, lookup: Result<string>, queryNanos: nat, dials: Probe.DialScript)
    requires lookup.Err?
    ensures var block := Pass(domain, server, lookup, queryNanos, dials);
      && block == [Resolve(server, Lookup.ResolverAddress(server)), QueryFailed(domain, server, lookup.error)]
      && Queried(block) == [server]
      && Count(block, QueryFailedTag) == 1
      && Count(block, DialTag) == 0
      && Count(block, SeparatorTag) == 0
  {
    var block := Pass(domain, server, lookup, queryNanos, dials);
    var q := block[0];
    var f := block[1];
    assert block == [q] + [f];
    CountConcat([q], [f], QueryFailedTag);
    CountSingle(q, QueryFailedTag);
    CountSingle(f, QueryFailedTag);
    CountZero(block, DialTag);
    CountZero(block, SeparatorTag);
    assert block[1..] == [f];
    CountZero(block[1..], ResolveTag);
    QueriedNone(block[1..]);
  }

  /** The pieces an answered server's pass is made of: an unfolding step of
      `Pass`, named so the lemmas below can cite it. */
  lemma AnsweredBlockParts(domain: string, server: string, lookup: Result<string>, queryNanos: nat, dials: Probe.DialScript)
    requires lookup.Ok?
    ensures var p := Probe.Probe(HostPort.Join(lookup.value, Probe.Port), dials);
      Pass(domain, server, lookup, queryNanos, dials) ==
        [Resolve(server, Lookup.ResolverAddress(server)), QueryTime(server, queryNanos), Resolved(lookup.value)]
        + p.trace + [OutcomeLine(p.result), Separator]
  {
  }

  /** The events of an answered pass around any alternating probe trace of
      one to four dials. */
  lemma AnsweredTrace(query: Event, server: string, queryNanos: nat, ip: string,
                      address: string, trace: seq<Event>, outcome: Event)
    requires query.Resolve? && query.server == server
    requires Probe.Alternating(trace, address) && |trace| <= 2 * Probe.Attempts - 1
    requires outcome.ProbeAverage? || outcome.ProbeFailed?
    ensures var block := [query, QueryTime(server, queryNanos), Resolved(ip)] + trace + [outcome, Separator];
      && block[..3] == [query, QueryTime(server, queryNanos), Resolved(ip)]
      && block[|block| - 1] == Separator
      && Queried(block) == [server]
      && Count(block, QueryFailedTag) == 0
      && Count(block, SeparatorTag) == 1
      && 1 <= Count(block, DialTag) <= Probe.Attempts
  {
    var head := [query, QueryTime(server, queryNanos), Resolved(ip)];
    var tail := [outcome, Separator];
    var block := head + trace + tail;
    assert block[..3] == head;
    Probe.AlternatingCounts(trace, address);
    AnsweredBlockQueried(query, head, trace, address, tail);
    AnsweredBlockCounts(head, trace, address, tail);
  }

  /** Between the three opening events and the two closing ones an answered
      pass holds exactly the probe's trace, so every dial in it goes to the
      probe's destination. */
  lemma AnsweredProbePart(head: seq<Event>, trace: seq<Event>, address: string, outcome: Event)
    requires |head| == 3 && forall i :: 0 <= i < 3 ==> !head[i].Dial?
    requires Probe.Alternating(trace, address) && !outcome.Dial?
    ensures var block := head + trace + [outcome, Separator];
      && block[3..|block| - 2] == trace
      && block[|block| - 2] == outcome
      && forall i :: 0 <= i < |block| && block[i].Dial? ==> block[i].address == address
  {
    var block := head + trace + [outcome, Separator];
    assert block[3..|block| - 2] == trace;
    assert forall i :: 3 <= i < |block| - 2 ==> block[i] == trace[i - 3];
  }

  /** An answered lookup: query time, address, the probe, its outcome, the blank line. */
  lemma AnsweredBlock(domain: string, server: string, lookup: Result<string>, queryNanos: nat, dials: Probe.DialScript)
    requires lookup.Ok?
    ensures var block := Pass(domain, server, lookup, queryNanos, dials);
      && block[..3] == [Resolve(server, Lookup.ResolverAddress(server)), QueryTime(server, queryNanos), Resolved(lookup.value)]
      && block[|block| - 1] == Separator
      && Queried(block) == [server]
      && Count(block, QueryFailedTag) == 0
      && Count(block, SeparatorTag) == 1
      && 1 <= Count(block, DialTag) <= Probe.Attempts
    ensures var block := Pass(domain, server, lookup, queryNanos, dials);
      var address := HostPort.Join(lookup.value, Probe.Port);
      var p := Probe.Probe(address, dials);
      && block[3..|block| - 2] == p.trace
      && block[|block| - 2] == OutcomeLine(p.result)
      && forall i :: 0 <= i < |block| && block[i].Dial? ==> block[i].address == address
  {
    var address := HostPort.Join(lookup.value, Probe.Port);
    var p := Probe.Probe(address, dials);
    var query := Resolve(server, Lookup.ResolverAddress(server));
    AnsweredBlockParts(domain, server, lookup, queryNanos, dials);
    Probe.ProbeTraceShape(address, dials);
    AnsweredTrace(query, server, queryNanos, lookup.value, address, p.trace, OutcomeLine(p.result));
    AnsweredProbePart([query, QueryTime(server, queryNanos), Resolved(lookup.value)], p.trace, address, OutcomeLine(p.result));
  }

  /** One server's pass: it starts with the query to that server and names no
      other; a failed lookup yields just the error line (no dial, no blank
      line); a successful one prints the query time and address, and ends
      with the blank line after one to four dials. */
  lemma ServerBlockShape(domain: string, server: string, want: nat, w: ServerWorld)
    ensures var block := ServerBlock(domain, server, want, w);
      && block[0] == Resolve(server, Lookup.ResolverAddress(server))
      && Queried(block) == [server]
    ensures var block := ServerBlock(domain, server, want, w);
      var lookup := Lookup.LookupIP(w.answer, want);
      lookup.Err? ==>
        && |block| == 2
        && block[1] == QueryFailed(domain, server, lookup.error)
        && Count(block, QueryFailedTag) == 1
        && Count(block, DialTag) == 0
        && Count(block, SeparatorTag) == 0
    ensures var block := ServerBlock(domain, server, want, w);
      var lookup := Lookup.LookupIP(w.answer, want);
      lookup.Ok? ==>
        && block[..3] == [block[0], QueryTime(server, w.queryNanos), Resolved(lookup.value)]
        && block[|block| - 1] == Separator
        && Count(block, QueryFailedTag) == 0
        && Count(block, SeparatorTag) == 1
        && 1 <= Count(block, DialTag) <= Probe.Attempts
    ensures var block := ServerBlock(domain, server, want, w);
      var lookup := Lookup.LookupIP(w.answer, want);
      lookup.Ok? ==>
        var address := HostPort.Join(lookup.value, Probe.Port);
        var p := Probe.Probe(address, w.dials);
        && block[3..|block| - 2] == p.trace
        && block[|block| - 2] == OutcomeLine(p.result)
        && forall i :: 0 <= i < |block| && block[i].Dial? ==> block[i].address == address
  {
    var lookup := Lookup.LookupIP(w.answer, want);
    if lookup.Err? {
      FailedBlock(domain, server, lookup, w.queryNanos, w.dials);
    } else {
      AnsweredBlock(domain, server, lookup, w.queryNanos, w.dials);
    }
  }

  /** What the per-server loop adds up: the server queried, and one error
      line, or one blank line and at most four dials. */
  lemma ServerBlockTally(domain: string, server: string, want: nat, w: ServerWorld)
    ensures var block := ServerBlock(domain, server, want, w);
      var answered := Lookup.LookupIP(w.answer, want).Ok?;
      && Queried(block) == [server]
      && Count(block, QueryFailedTag) == (if answered then 0 else 1)
      && Count(block, SeparatorTag) == (if answered then 1 else 0)
      && Count(block, DialTag) <= (if answered then Probe.Attempts else 0)
  {
    var lookup := Lookup.LookupIP(w.answer, want);
    if lookup.Err? {
      FailedBlock(domain, server, lookup, w.queryNanos, w.dials);
    } else {
      AnsweredBlock(domain, server, lookup, w.queryNanos, w.dials);
    }
  }

  /** The passes query the servers from `i` on, in list order. */
  lemma {:induction false} PassesQueryInOrder(c: Cli.Config, world: seq<ServerWorld>, i: nat)
    requires |world| >= |c.servers| && i <= |c.servers|
    ensures Queried(Passes(c, world, i)) == c.servers[i..]
    decreases |c.servers| - i
  {
    if i < |c.servers| {
      PassesQueryInOrder(c, world, i + 1);
      ServerBlockTally(c.domain, c.servers[i], c.addressLength, world[i]);
      QueriedConcat(ServerBlock(c.domain, c.servers[i], c.addressLength, world[i]), Passes(c, world, i + 1));
      assert c.servers[i..] == [c.servers[i]] + c.servers[i + 1..];
    }
  }

  /** One blank line per answered server, one error line per other server,
      and at most four dials per answered server. */
  lemma {:induction false} PassesCounts(c: Cli.Config, world: seq<ServerWorld>, i: nat)
    requires |world| >= |c.servers| && i <= |c.servers|
    ensures Count(Passes(c, world, i), SeparatorTag) == Answered(c, world, i)
    ensures Count(Passes(c, world, i), QueryFailedTag) == |c.servers| - i - Answered(c, world, i)
    ensures Count(Passes(c, world, i), DialTag) <= Probe.Attempts * Answered(c, world, i)
    decreases |c.servers| - i
  {
    if i < |c.servers| {
      PassesCounts(c, world, i + 1);
      var block := ServerBlock(c.domain, c.servers[i], c.addressLength, world[i]);
      ServerBlockTally(c.domain, c.servers[i], c.addressLength, world[i]);
      CountConcat(block, Passes(c, world, i + 1), SeparatorTag);
      CountConcat(block, Passes(c, world, i + 1), QueryFailedTag);
      CountConcat(block, Passes(c, world, i + 1), DialTag);
    }
  }

  /** Missing `-d` or `-s`: status 1, the usage text, and no query or dial;
      otherwise status 0 whatever the network does. */
  lemma RunMissingParameters(f: Cli.Flags, world: seq<ServerWorld>)
    requires Cli.Configure(f).Some? ==> |world| >= |Cli.Configure(f).value.servers|
    ensures Run(f, world).status == 1 <==> f.domain == "" || f.servers == ""
    ensures Run(f, world).status == 0 <==> f.domain != "" && f.servers != ""
    ensures f.domain == "" || f.servers == "" ==>
      && Run(f, world).trace == [UsageShown]
      && Count(Run(f, world).trace, ResolveTag) == 0
      && Count(Run(f, world).trace, DialTag) == 0
  {
  }

  /** The servers are queried exactly in the order `-s` lists them. */
  lemma RunQueriesInOrder(f: Cli.Flags, world: seq<ServerWorld>)
    requires f.domain != "" && f.servers != ""
    requires |world| >= |Text.Split(f.servers, ',')|
    ensures Queried(Run(f, world).trace) == Text.Split(f.servers, ',')
  {
    var c := Cli.Configure(f).value;
    PassesQueryInOrder(c, world, 0);
    assert c.servers[0..] == c.servers;
  }

  /** Blank lines are exactly as many as answered servers, error lines as
      many as the others, and no answered server is dialled more than four times. */
  lemma RunCounts(f: Cli.Flags, world: seq<ServerWorld>)
    requires f.domain != "" && f.servers != ""
    requires |world| >= |Text.Split(f.servers, ',')|
    ensures var c := Cli.Configure(f).value;
      && Count(Run(f, world).trace, SeparatorTag) == Answered(c, world, 0)
      && Count(Run(f, world).trace, QueryFailedTag) == |c.servers| - Answered(c, world, 0)
      && Count(Run(f, world).trace, DialTag) <= Probe.Attempts * Answered(c, world, 0)
  {
    PassesCounts(Cli.Configure(f).value, world, 0);
  }

  /** The probe dials the text `lookupIP` returned, joined with port 80: the
      dialer reads that text and port back, and the destination is bracketed
      exactly when a 16-byte address that is not IPv4 carried in IPv6 was
      selected. */
  lemma ProbeDestination(ips: seq<Address>, want: nat)
    requires Lookup.LookupIP(Ok(ips), want).Ok?
    ensures var ip := Lookup.LookupIP(Ok(ips), want).value;
      var k := Lookup.FirstOfLength(ips, want);
      && HostPort.Split(HostPort.Join(ip, Probe.Port)) == Some((ip, "80"))
      && (HostPort.Join(ip, Probe.Port)[0] == '[' <==> want == IpText.IPv6Len && !IpText.IsV4InV6(ips[k]))
  {
    var k := Lookup.FirstOfLength(ips, want);
    var ip := IpText.String(ips[k]);
    IpText.StringHasNoBrackets(ips[k]);
    Lookup.LookupTextColon(ips, want);
    DestinationReadsBack(ip);
    DestinationBracketed(ip);
  }

  lemma DestinationReadsBack(ip: string)
    requires '[' !in ip && ']' !in ip
    ensures HostPort.Split(HostPort.Join(ip, Probe.Port)) == Some((ip, "80"))
  {
    HostPort.SplitJoin(ip, Probe.Port);
    assert Text.Decimal(Probe.Port) == "80";
  }

  /** A bracket-free host is bracketed in the destination exactly when it has a colon. */
  lemma DestinationBracketed(ip: string)
    requires '[' !in ip
    ensures HostPort.Join(ip, Probe.Port)[0] == '[' <==> ':' in ip
  {
    if ':' !in ip && |ip| > 0 {
      assert HostPort.Join(ip, Probe.Port)[0] == ip[0];
    }
  }

  /** No dial in `trace` goes to a bracketed (IPv6-literal) destination. */
  ghost predicate NoBracketedDial(trace: seq<Event>)
  {
    forall p :: 0 <= p < |trace| && trace[p].Dial? ==> trace[p].address == [] || trace[p].address[0] != '['
  }

  lemma NoBracketedDialConcat(a: seq<Event>, b: seq<Event>)
    requires NoBracketedDial(a) && NoBracketedDial(b)
    ensures NoBracketedDial(a + b)
  {
    assert forall p :: |a| <= p < |a + b| ==> (a + b)[p] == b[p - |a|];
  }

  /** An answered pass whose probe destination is unbracketed dials no
      bracketed destination. */
  lemma AnsweredUnbracketed(head: seq<Event>, trace: seq<Event>, address: string, tail: seq<Event>)
    requires forall p :: 0 <= p < |head| ==> !head[p].Dial?
    requires forall p :: 0 <= p < |tail| ==> !tail[p].Dial?
    requires Probe.Alternating(trace, address)
    requires address == [] || address[0] != '['
    ensures NoBracketedDial(head + trace + tail)
  {
    assert NoBracketedDial(trace);
    NoBracketedDialConcat(head, trace);
    NoBracketedDialConcat(head + trace, tail);
  }

  /** A pass whose probe destination is unbracketed dials no bracketed destination. */
  lemma PassUnbracketed(domain: string, server: string, lookup: Result<string>, queryNanos: nat, dials: Probe.DialScript)
    requires lookup.Ok? ==> HostPort.Join(lookup.value, Probe.Port)[0] != '['
    ensures NoBracketedDial(Pass(domain, server, lookup, queryNanos, dials))
  {
    if lookup.Err? {
      FailedBlock(domain, server, lookup, queryNanos, dials);
    } else {
      var address := HostPort.Join(lookup.value, Probe.Port);
      var p := Probe.Probe(address, dials);
      var head := [Resolve(server, Lookup.ResolverAddress(server)), QueryTime(server, queryNanos), Resolved(lookup.value)];
      var tail := [OutcomeLine(p.result), Separator];
      AnsweredBlockParts(domain, server, lookup, queryNanos, dials);
      Probe.ProbeTraceShape(address, dials);
      AnsweredUnbracketed(head, p.trace, address, tail);
    }
  }

  /** With 4-byte addresses requested, a server's pass dials no bracketed destination. */
  lemma ServerBlockUnbracketed(domain: string, server: string, w: ServerWorld)
    ensures NoBracketedDial(ServerBlock(domain, server, IpText.IPv4Len, w))
  {
    var lookup := Lookup.LookupIP(w.answer, IpText.IPv4Len);
    if lookup.Ok? {
      ProbeDestination(w.answer.value, IpText.IPv4Len);
    }
    PassUnbracketed(domain, server, lookup, w.queryNanos, w.dials);
  }

  lemma {:induction false} PassesUnbracketed(c: Cli.Config, world: seq<ServerWorld>, i: nat)
    requires c.addressLength == IpText.IPv4Len
    requires |world| >= |c.servers| && i <= |c.servers|
    ensures NoBracketedDial(Passes(c, world, i))
    decreases |c.servers| - i
  {
    if i < |c.servers| {
      var block := ServerBlock(c.domain, c.servers[i], c.addressLength, world[i]);
      var rest := Passes(c, world, i + 1);
      assert Passes(c, world, i) == block + rest;
      PassesUnbracketed(c, world, i + 1);
      ServerBlockUnbracketed(c.domain, c.servers[i], world[i]);
      NoBracketedDialConcat(block, rest);
    }
  }

  /** Unless `-t` is "6", the probe never dials a bracketed destination. */
  lemma RunIPv4Unbracketed(f: Cli.Flags, world: seq<ServerWorld>)
    requires f.queryType != "6"
    requires Cli.Configure(f).Some? ==> |world| >= |Cli.Configure(f).value.servers|
    ensures NoBracketedDial(Run(f, world).trace)
  {
    if Cli.Configure(f).Some? {
      PassesUnbracketed(Cli.Configure(f).value, world, 0);
    }
  }
}

=== FILE: hostport.dfy ===
/**
  The `host:port` text the tool dials. `tcping` formats it itself
  (main.go:101-107), as `net.JoinHostPort` would: a host that contains a
  colon is bracketed. `net.SplitHostPort` is the reading the dialer applies
  to the text before it connects, so it is the partner of the join.
 */
module HostPort {
  import opened Common
  import Text

  /** Joins a host and a numeric port: `[host]:port` when the host contains
      a colon (an IPv6 literal), `host:port` otherwise. */
  function Join(host: string, port: nat): (hp: string)
    ensures var d := Text.Decimal(port);
      |hp| == |host| + 1 + |d| + (if ':' in host then 2 else 0)
      && hp[|hp| - |d| - 1] == ':' && hp[|hp| - |d|..] == d
    ensures ':' in host ==> hp[0] == '[' && hp[1..|host| + 1] == host && hp[|host| + 1] == ']'
    ensures ':' !in host ==> hp[..|host|] == host
  {
    if ':' in host then "[" + host + "]:" + Text.Decimal(port)
    else host + ":" + Text.Decimal(port)
  }

  /** Position of the last `c` in `s`, or -1. */
  function LastIndex(s: string, c: char): (i: int)
    ensures -1 <= i < |s|
    ensures 0 <= i ==> s[i] == c
    ensures forall j :: i < j < |s| ==> s[j] != c
    decreases |s|
  {
    if |s| == 0 then -1
    else if s[|s| - 1] == c then |s| - 1
    else LastIndex(s[..|s| - 1], c)
  }

  /** Position of the first `c` in `s`, or -1. */
  function Index(s: string, c: char): (i: int)
    ensures -1 <= i < |s|
    ensures 0 <= i ==> s[i] == c
    ensures i < 0 <==> c !in s
    ensures forall j :: 0 <= j < i ==> s[j] != c
    decreases |s|
  {
    if |s| == 0 then -1
    else if s[0] == c then 0
    else
      var k := Index(s[1..], c);
      if k < 0 then -1 else k + 1
  }

  /** Go's `net.SplitHostPort`, every error collapsed to `None`: the port is
      what follows the last colon; a bracketed host must close just before
      that colon; an unbracketed host may not contain a colon; no stray
      brackets are allowed. */
  function Split(hp: string): Option<(string, string)>
  {
    var i := LastIndex(hp, ':');
    if i < 0 then None
    else if hp[0] == '[' then
      var end := Index(hp, ']');
      if end < 0 || end + 1 != i then None
      else if '[' in hp[1..] || ']' in hp[end + 1..] then None
      else Some((hp[1..end], hp[i + 1..]))
    else
      var host := hp[..i];
      if ':' in host || '[' in hp || ']' in hp then None
      else Some((host, hp[i + 1..]))
  }

  /** The dialer reads back exactly the host and port that were joined,
      for every host free of brackets (every text `IpText.String` yields). */
  lemma SplitJoin(host: string, port: nat)
    requires '[' !in host && ']' !in host
    ensures Split(Join(host, port)) == Some((host, Text.Decimal(port)))
  {
    var d := Text.Decimal(port);
    assert ':' !in d && '[' !in d && ']' !in d by {
      forall j | 0 <= j < |d| ensures d[j] != ':' && d[j] != '[' && d[j] != ']' {
        assert Text.IsDigit(d[j]);
      }
    }
    if ':' in host {
      SplitBracketed(host, d);
    } else {
      SplitPlain(host, d);
    }
  }

  /** The bracketed form reads back as the host inside the brackets and the port. */
  lemma SplitBracketed(host: string, d: string)
    requires '[' !in host && ']' !in host
    requires ':' !in d && '[' !in d && ']' !in d
    ensures Split("[" + host + "]:" + d) == Some((host, d))
  {
    var hp := "[" + host + "]:" + d;
    var i := LastIndex(hp, ':');
    assert hp[|host| + 2] == ':';
    assert forall j :: |host| + 2 < j < |hp| ==> hp[j] == d[j - |host| - 3];
    assert i == |host| + 2;
    var end := Index(hp, ']');
    assert hp[|host| + 1] == ']';
    assert forall j :: 1 <= j < |host| + 1 ==> hp[j] == host[j - 1];
    assert end == |host| + 1;
    assert hp[1..] == host + "]:" + d;
    assert '[' !in hp[1..] by {
      forall j | 0 <= j < |hp| - 1 ensures hp[1..][j] != '[' {
        if j < |host| {
          assert hp[1..][j] == host[j];
        } else if j >= |host| + 2 {
          assert hp[1..][j] == d[j - |host| - 2];
        }
      }
    }
    assert hp[end + 1..] == ":" + d;
    assert hp[1..end] == host;
    assert hp[i + 1..] == d;
  }

  /** The plain form reads back as the host before the colon and the port. */
  lemma SplitPlain(host: string, d: string)
    requires ':' !in host && '[' !in host && ']' !in host
    requires ':' !in d && '[' !in d && ']' !in d
    ensures Split(host + ":" + d) == Some((host, d))
  {
    var hp := host + ":" + d;
    var i := LastIndex(hp, ':');
    assert hp[|host|] == ':';
    assert forall j :: |host| < j < |hp| ==> hp[j] == d[j - |host| - 1];
    assert i == |host|;
    assert forall j :: 0 <= j < |host| ==> hp[j] == host[j];
    assert hp[..i] == host;
    assert hp[i + 1..] == d;
    assert '[' !in hp && ']' !in hp by {
      forall j | 0 <= j < |hp| ensures hp[j] != '[' && hp[j] != ']' {
        if j < |host| {
          assert hp[j] == host[j];
        } else if j > |host| {
          assert hp[j] == d[j - |host| - 1];
        }
      }
    }
  }
}

=== FILE: iptext.dfy ===
/**
  The text `ip.String()` gives for the raw address `lookupIP` selects (Go's
  `net.IP.String`): dotted decimal for a 4-byte address and for an IPv4
  address carried in 16 bytes (`::ffff:a.b.c.d`), and otherwise the eight
  16-bit groups in lower-case hexadecimal, the first longest run of two or
  more zero groups shortened to `::` as sections 4.2.2 and 4.2.3 of RFC
  5952 ask.
  Whether this text contains a colon decides whether the probe brackets it.
 */
module IpText {
  import opened Common
  import Text

  /** Go's `net.IPv4len` and `net.IPv6len`. */
  const IPv4Len: nat := 4
  const IPv6Len: nat := 16

  /** A 16-byte address of the form `::ffff:a.b.c.d` (Go's `To4` succeeds on it). */
  predicate IsV4InV6(ip: Address)
  {
    && |ip| == IPv6Len
    && (forall i :: 0 <= i < 10 ==> ip[i] == 0)
    && ip[10] == 255
    && ip[11] == 255
  }

  function DottedQuad(ip: Address): string
    requires |ip| == IPv4Len
  {
    Text.Join([Text.Decimal(ip[0]), Text.Decimal(ip[1]), Text.Decimal(ip[2]), Text.Decimal(ip[3])], '.')
  }

  /** The `i`-th 16-bit group of an IPv6 address, big-endian. */
  function Group(ip: Address, i: nat): nat
    requires |ip| == IPv6Len && i < 8
  {
    (ip[2 * i] as int) * 256 + (ip[2 * i + 1] as int)
  }

  /** Groups `a` up to (not including) `b` are all zero. */
  predicate ZeroGroups(ip: Address, a: nat, b: nat)
    requires |ip| == IPv6Len
  {
    a < b <= 8 && forall k :: a <= k < b ==> Group(ip, k) == 0
  }

  /** A run of zero groups, `start` up to (not including) `end`, or none. */
  datatype ZeroRun = NoRun | Run(start: nat, end: nat)
  {
    function Length(): nat
    {
      if Run? && start <= end then end - start else 0
    }
  }

  /** `run` is the first of the longest runs of two or more zero groups that
      start before group `i`; `NoRun` when there is none. */
  ghost predicate FirstLongest(ip: Address, run: ZeroRun, i: nat)
    requires |ip| == IPv6Len
  {
    && (run.Run? ==> run.start < i && run.start + 2 <= run.end && ZeroGroups(ip, run.start, run.end))
    && (forall a: nat, b: nat :: a < i && ZeroGroups(ip, a, b) && 2 <= b - a ==> b - a <= run.Length())
    && (forall a: nat, b: nat :: a < i && ZeroGroups(ip, a, b) && 2 <= b - a == run.Length() ==>
          run.Run? && run.start <= a)
  }

  /** End of the run of zero groups that starts at group `i`. */
  function ZeroRunEnd(ip: Address, i: nat): (j: nat)
    requires |ip| == IPv6Len && i <= 8
    ensures i <= j <= 8
    ensures forall k :: i <= k < j ==> Group(ip, k) == 0
    ensures j < 8 ==> Group(ip, j) != 0
    decreases 8 - i
  {
    if i == 8 || Group(ip, i) != 0 then i else ZeroRunEnd(ip, i + 1)
  }

  /** The scan over start positions `i`..7 that keeps a run only when it is
      strictly longer than the best so far. */
  function ScanRuns(ip: Address, i: nat, best: ZeroRun): (r: ZeroRun)
    requires |ip| == IPv6Len && i <= 8
    requires FirstLongest(ip, best, i)
    ensures FirstLongest(ip, r, 8)
    decreases 8 - i
  {
    if i == 8 then best
    else
      var j := ZeroRunEnd(ip, i);
      var next := if j - i >= 2 && j - i > best.Length() then Run(i, j) else best;
      assert forall b: nat :: ZeroGroups(ip, i, b) ==> b <= j;
      ScanRuns(ip, i + 1, next)
  }

  /** The run written as `::`: the first longest run of at least two zero groups. */
  function CompressedRun(ip: Address): (r: ZeroRun)
    requires |ip| == IPv6Len
    ensures FirstLongest(ip, r, 8)
  {
    ScanRuns(ip, 0, NoRun)
  }

  /** The eight groups of an IPv6 address as lower-case hexadecimal without
      leading zeros. */
  function HexGroups(ip: Address): (h: seq<string>)
    requires |ip| == IPv6Len
    ensures |h| == 8 && forall j :: 0 <= j < 8 ==> h[j] == Text.Hex(Group(ip, j))
  {
    seq(8, j requires 0 <= j < 8 => Text.Hex(Group(ip, j)))
  }

  /** The text of the eight hexadecimal groups `g` from group `i` on, with
      the run `run` written as `::`. */
  function V6Text(g: seq<string>, i: nat, run: ZeroRun): string
    requires |g| == 8 && i <= 8
    requires run.Run? ==> run.start + 2 <= run.end <= 8
    decreases 8 - i
  {
    if i == 8 then ""
    else if run.Run? && i == run.start then
      "::" + (if run.end == 8 then "" else g[run.end] + V6Text(g, run.end + 1, run))
    else
      (if i > 0 then ":" else "") + g[i] + V6Text(g, i + 1, run)
  }

  /** Go's `net.IP.String`. */
  function String(ip: Address): string
  {
    if |ip| == 0 then "<nil>"
    else if |ip| != IPv4Len && |ip| != IPv6Len then "?" + Text.HexBytes(ip)
    else if |ip| == IPv4Len then DottedQuad(ip)
    else if IsV4InV6(ip) then DottedQuad(ip[12..])
    else V6Text(HexGroups(ip), 0, CompressedRun(ip))
  }

  /** One group away from the compressed run: a colon unless it is the first
      group, its hexadecimal text, then the rest. */
  lemma V6TextStep(g: seq<string>, i: nat, run: ZeroRun)
    requires |g| == 8 && i < 8
    requires run.Run? ==> run.start + 2 <= run.end <= 8
    requires run.Run? ==> i != run.start
    ensures V6Text(g, i, run) == (if i > 0 then ":" else "") + g[i] + V6Text(g, i + 1, run)
  {
  }

  /** Away from the compressed run, the text from group `i` (not the first)
      up to group `stop` is each group preceded by one colon. */
  lemma {:induction false} V6TextSpan(g: seq<string>, i: nat, stop: nat, run: ZeroRun)
    requires |g| == 8 && 0 < i < stop <= 8
    requires run.Run? ==> run.start + 2 <= run.end <= 8
    requires run.Run? ==> !(i <= run.start < stop)
    ensures V6Text(g, i, run) == ":" + Text.Join(g[i..stop], ':') + V6Text(g, stop, run)
    decreases stop - i
  {
    var parts := g[i..stop];
    var tail := V6Text(g, stop, run);
    V6TextStep(g, i, run);
    if i + 1 < stop {
      V6TextSpan(g, i + 1, stop, run);
      assert parts[1..] == g[i + 1..stop];
      Text.JoinCons(parts, ':');
      var j := Text.Join(g[i + 1..stop], ':');
      Text.Regroup(":", g[i], ":", j, tail);
    } else {
      assert parts == [g[i]];
    }
  }

  /** The compressed run and what follows it: `::` and then the groups after
      the run, colon-separated. */
  lemma V6TextFromRun(g: seq<string>, run: ZeroRun)
    requires |g| == 8 && run.Run? && run.start + 2 <= run.end <= 8
    ensures V6Text(g, run.start, run) == "::" + Text.Join(g[run.end..], ':')
  {
    var e := run.end;
    if e == 8 {
      assert g[e..] == [];
    } else if e + 1 == 8 {
      assert g[e..] == [g[e]];
    } else {
      V6TextSpan(g, e + 1, 8, run);
      assert g[e..][1..] == g[e + 1..8];
    }
  }

  /** Without a compressed run, the IPv6 text is the eight groups joined by colons. */
  lemma V6TextNoRun(g: seq<string>)
    requires |g| == 8
    ensures V6Text(g, 0, NoRun) == Text.Join(g, ':')
  {
    var rest := Text.Join(g[1..], ':');
    V6TextStep(g, 0, NoRun);
    V6TextSpan(g, 1, 8, NoRun);
    assert g[1..8] == g[1..];
    assert V6Text(g, 8, NoRun) == "";
    Text.JoinCons(g, ':');
    Text.Regroup("", g[0], ":", rest, "");
    Text.DropEmpty(g[0] + ":" + rest);
  }

  /** A compressed run at the first group: the text opens with `::`. */
  lemma V6TextRunFirst(g: seq<string>, run: ZeroRun)
    requires |g| == 8 && run.Run? && run.start == 0 && 2 <= run.end <= 8
    ensures V6Text(g, 0, run) == Text.Join(g[..run.start], ':') + "::" + Text.Join(g[run.end..], ':')
  {
        V6TextFromRun(g, run);
    assert g[..run.start] == [];
    Text.DropEmpty("::" + Text.Join(g[run.end..], ':'));
  }

  /** A compressed run after the first group: the groups before it, joined by
      colons, come first. */
  lemma V6TextRunLater(g: seq<string>, run: ZeroRun)
    requires |g| == 8 && run.Run? && 1 <= run.start && run.start + 2 <= run.end <= 8
    ensures V6Text(g, 0, run) == Text.Join(g[..run.start], ':') + "::" + Text.Join(g[run.end..], ':')
  {
    var st := run.start;
    var after := V6Text(g, st, run);
    var x := Text.Join(g[run.end..], ':');
    var before := Text.Join(g[..st], ':');
    V6TextFromRun(g, run);
    V6TextStep(g, 0, run);
    if st == 1 {
      assert g[..st] == [g[0]];
      Text.DropEmpty(g[0]);
      assert V6Text(g, 0, run) == before + after;
    } else {
      var middle := Text.Join(g[1..st], ':');
      V6TextSpan(g, 1, st, run);
      assert g[..st][1..] == g[1..st];
      Text.JoinCons(g[..st], ':');
      Text.Regroup("", g[0], ":", middle, after);
      Text.DropEmpty(g[0] + ":" + middle);
      assert V6Text(g, 0, run) == before + after;
    }
    Text.Assoc(before, "::", x);
  }

  /** IPv6 text in the form of sections 4.2.2 and 4.2.3 of RFC 5952: without a
      run of two or more zero groups, all eight groups joined by colons;
      otherwise the groups before the chosen run, `::`, and the groups after
      it. */
  lemma V6Layout(ip: Address)
    requires |ip| == IPv6Len && !IsV4InV6(ip)
    ensures var h := HexGroups(ip);
      CompressedRun(ip).NoRun? ==> String(ip) == Text.Join(h, ':')
    ensures var h := HexGroups(ip);
      var run := CompressedRun(ip);
      run.Run? ==> String(ip) == Text.Join(h[..run.start], ':') + "::" + Text.Join(h[run.end..], ':')
  {
    var g := HexGroups(ip);
    var run := CompressedRun(ip);
    assert String(ip) == V6Text(g, 0, run);
    if run.NoRun? {
      V6TextNoRun(g);
    } else if run.start == 0 {
      V6TextRunFirst(g, run);
    } else {
      V6TextRunLater(g, run);
    }
  }

  /** After the first group, the IPv6 text always continues with a colon. */
  lemma V6TextStartsWithColon(g: seq<string>, i: nat, run: ZeroRun)
    requires |g| == 8 && 0 < i < 8
    requires run.Run? ==> run.start + 2 <= run.end <= 8
    ensures 0 < |V6Text(g, i, run)| && V6Text(g, i, run)[0] == ':'
  {
  }

  lemma DottedQuadHasNoColon(ip: Address)
    requires |ip| == IPv4Len
    ensures ':' !in DottedQuad(ip)
  {
    var parts := [Text.Decimal(ip[0]), Text.Decimal(ip[1]), Text.Decimal(ip[2]), Text.Decimal(ip[3])];
    forall i | 0 <= i < 4 ensures ':' !in parts[i] {
      forall k | 0 <= k < |parts[i]| ensures parts[i][k] != ':' {
        assert Text.IsDigit(parts[i][k]);
      }
    }
    Text.JoinExcludes(parts, '.', ':');
  }

  lemma OddLengthHasNoColon(ip: Address)
    requires |ip| != 0 && |ip| != IPv4Len && |ip| != IPv6Len
    ensures ':' !in String(ip)
  {
    var h := Text.HexBytes(ip);
    var s := String(ip);
    assert s == "?" + h;
    forall k | 0 <= k < |s| ensures s[k] != ':' {
      if k > 0 {
        assert s[k] == h[k - 1];
        assert Text.IsLowerHexDigit(h[k - 1]);
      }
    }
  }

  /** From the first group on, the IPv6 text contains a colon. */
  lemma V6TextHasColon(g: seq<string>, run: ZeroRun)
    requires |g| == 8
    requires run.Run? ==> run.start + 2 <= run.end <= 8
    ensures ':' in V6Text(g, 0, run)
  {
    var s := V6Text(g, 0, run);
    if run.Run? && run.start == 0 {
      assert s == "::" + (if run.end == 8 then "" else g[run.end] + V6Text(g, run.end + 1, run));
      assert s[0] == ':';
    } else {
      var h := g[0];
      var t := V6Text(g, 1, run);
      assert s == "" + h + t;
      V6TextStartsWithColon(g, 1, run);
      assert s[|h|] == t[0];
    }
  }

  /** The probe brackets an address exactly when it is a genuine IPv6
      address: a 16-byte address that is not IPv4 carried in IPv6. */
  lemma StringHasColon(ip: Address)
    ensures ':' in String(ip) <==> |ip| == IPv6Len && !IsV4InV6(ip)
  {
    if |ip| == 0 {
      var s := String(ip);
      assert s == "<nil>";
      assert s[0] != ':' && s[1] != ':' && s[2] != ':' && s[3] != ':' && s[4] != ':';
    } else if |ip| != IPv4Len && |ip| != IPv6Len {
      OddLengthHasNoColon(ip);
    } else if |ip| == IPv4Len {
      DottedQuadHasNoColon(ip);
    } else if IsV4InV6(ip) {
      DottedQuadHasNoColon(ip[12..]);
    } else {
      V6TextHasColon(HexGroups(ip), CompressedRun(ip));
    }
  }

  /** The characters `String` writes: hexadecimal digits, the separators, and those of "?" and "<nil>". */
  predicate IsAddressChar(c: char)
  {
    Text.IsLowerHexDigit(c) || c == '.' || c == ':' || c == '?' || c == '<' || c == '>' || c == 'n' || c == 'i' || c == 'l'
  }

  /** Every character of `t` is one `String` writes. */
  predicate AddressChars(t: string)
  {
    forall k :: 0 <= k < |t| ==> IsAddressChar(t[k])
  }

  lemma HexGroupsChars(ip: Address)
    requires |ip| == IPv6Len
    ensures forall j :: 0 <= j < 8 ==> AddressChars(HexGroups(ip)[j])
  {
    forall j | 0 <= j < 8 ensures AddressChars(HexGroups(ip)[j]) {
      var t := Text.Hex(Group(ip, j));
      assert forall k :: 0 <= k < |t| ==> Text.IsLowerHexDigit(t[k]);
    }
  }

  lemma CharsConcat(a: string, b: string)
    requires AddressChars(a) && AddressChars(b)
    ensures AddressChars(a + b)
  {
    assert forall k :: |a| <= k < |a + b| ==> (a + b)[k] == b[k - |a|];
  }

  lemma {:induction false} V6TextChars(g: seq<string>, i: nat, run: ZeroRun)
    requires |g| == 8 && i <= 8
    requires run.Run? ==> run.start + 2 <= run.end <= 8
    requires forall j :: 0 <= j < 8 ==> AddressChars(g[j])
    ensures AddressChars(V6Text(g, i, run))
    decreases 8 - i
  {
    if i < 8 {
      if run.Run? && i == run.start {
        if run.end < 8 {
          V6TextChars(g, run.end + 1, run);
          CharsConcat(g[run.end], V6Text(g, run.end + 1, run));
          CharsConcat("::", g[run.end] + V6Text(g, run.end + 1, run));
        }
      } else {
        var sep := if i > 0 then ":" else "";
        V6TextChars(g, i + 1, run);
        CharsConcat(sep, g[i]);
        CharsConcat(sep + g[i], V6Text(g, i + 1, run));
      }
    }
  }

  lemma DottedQuadChars(ip: Address)
    requires |ip| == IPv4Len
    ensures forall k :: 0 <= k < |DottedQuad(ip)| ==> IsAddressChar(DottedQuad(ip)[k])
  {
    var parts := [Text.Decimal(ip[0]), Text.Decimal(ip[1]), Text.Decimal(ip[2]), Text.Decimal(ip[3])];
    forall c | !IsAddressChar(c) ensures c !in DottedQuad(ip) {
      forall i | 0 <= i < 4 ensures c !in parts[i] {
        forall k | 0 <= k < |parts[i]| ensures parts[i][k] != c {
          assert Text.IsDigit(parts[i][k]);
        }
      }
      Text.JoinExcludes(parts, '.', c);
    }
  }

  lemma OddLengthChars(ip: Address)
    requires |ip| != 0 && |ip| != IPv4Len && |ip| != IPv6Len
    ensures forall k :: 0 <= k < |String(ip)| ==> IsAddressChar(String(ip)[k])
  {
    var h := Text.HexBytes(ip);
    var s := String(ip);
    assert s == "?" + h;
    assert forall k :: 1 <= k < |s| ==> s[k] == h[k - 1];
  }

  lemma NilChars()
    ensures forall k :: 0 <= k < |String([])| ==> IsAddressChar(String([])[k])
  {
    assert String([]) == "<nil>";
  }

  /** Address text never contains a bracket, so the host:port join reads back. */
  lemma StringHasNoBrackets(ip: Address)
    ensures '[' !in String(ip) && ']' !in String(ip)
  {
    if |ip| == 0 {
      assert ip == [];
      NilChars();
    } else if |ip| != IPv4Len && |ip| != IPv6Len {
      OddLengthChars(ip);
    } else if |ip| == IPv4Len {
      DottedQuadChars(ip);
    } else if IsV4InV6(ip) {
      DottedQuadChars(ip[12..]);
    } else {
      HexGroupsChars(ip);
      V6TextChars(HexGroups(ip), 0, CompressedRun(ip));
    }
    assert !IsAddressChar('[') && !IsAddressChar(']');
  }

  /** One dotted-decimal field: digits only, at least one, value below 256. */
  predicate IsField(p: string)
  {
    1 <= |p| && (forall k :: 0 <= k < |p| ==> Text.IsDigit(p[k])) && Text.ParseDecimal(p) < 256
  }

  /** Reads dotted-decimal text back as four bytes. */
  function ParseDotted(s: string): Option<Address>
  {
    var parts := Text.Split(s, '.');
    if |parts| == 4 && IsField(parts[0]) && IsField(parts[1]) && IsField(parts[2]) && IsField(parts[3]) then
      Some([Text.ParseDecimal(parts[0]), Text.ParseDecimal(parts[1]),
            Text.ParseDecimal(parts[2]), Text.ParseDecimal(parts[3])])
    else None
  }

  lemma DecimalField(b: byte)
    ensures IsField(Text.Decimal(b))
    ensures '.' !in Text.Decimal(b)
    ensures Text.ParseDecimal(Text.Decimal(b)) == b
  {
    var d := Text.Decimal(b);
    forall k | 0 <= k < |d| ensures d[k] != '.' {
      assert Text.IsDigit(d[k]);
    }
    Text.DecimalRoundTrip(b);
  }

  lemma DottedQuadRoundTrip(ip: Address)
    requires |ip| == IPv4Len
    ensures ParseDotted(DottedQuad(ip)) == Some(ip)
  {
    var parts := [Text.Decimal(ip[0]), Text.Decimal(ip[1]), Text.Decimal(ip[2]), Text.Decimal(ip[3])];
    DecimalField(ip[0]);
    DecimalField(ip[1]);
    DecimalField(ip[2]);
    DecimalField(ip[3]);
    Text.SplitJoin(parts, '.');
    assert Text.Split(DottedQuad(ip), '.') == parts;
    assert [ip[0], ip[1], ip[2], ip[3]] == ip;
  }

  /** The dotted text of a 4-byte address, or of IPv4 carried in 16 bytes,
      reads back as the four IPv4 bytes. */
  lemma DottedRoundTrip(ip: Address)
    requires |ip| == IPv4Len || IsV4InV6(ip)
    ensures ParseDotted(String(ip)) == Some(if |ip| == IPv4Len then ip else ip[12..])
  {
    if |ip| == IPv4Len {
      DottedQuadRoundTrip(ip);
    } else {
      DottedQuadRoundTrip(ip[12..]);
    }
  }
}

=== FILE: lookup.dfy ===
/**
  `lookupIP` (main.go:76-97). The DNS exchange itself is an oracle: its
  answer is the resolver's list of raw addresses, in the order returned,
  or its error. Also the address the resolver's dialer sends the query to.
 */
module Lookup {
  import opened Common
  import Text
  import IpText
  import HostPort

  /** The DNS port the query goes to. */
  const DnsPort: nat := 53

  /** `k` is the first address in `ips` with `want` bytes. */
  predicate IsFirstOfLength(ips: seq<Address>, want: nat, k: nat)
  {
    k < |ips| && |ips[k]| == want && forall j :: 0 <= j < k ==> |ips[j]| != want
  }

  /** Index of the first address of `want` bytes, or `|ips|` when there is none. */
  function FirstOfLength(ips: seq<Address>, want: nat): (k: nat)
    ensures k <= |ips|
    ensures k < |ips| ==> IsFirstOfLength(ips, want, k)
    ensures k == |ips| ==> forall j :: 0 <= j < |ips| ==> |ips[j]| != want
    decreases |ips|
  {
    if |ips| == 0 then 0
    else if |ips[0]| == want then 0
    else 1 + FirstOfLength(ips[1..], want)
  }

  /** There is only one first address of a given length. */
  lemma FirstOfLengthUnique(ips: seq<Address>, want: nat, k: nat)
    requires IsFirstOfLength(ips, want, k)
    ensures FirstOfLength(ips, want) == k
  {
    var f := FirstOfLength(ips, want);
    assert f <= k;
    assert k <= f;
  }

  /** A resolver error passes through unchanged; otherwise the text of the
      first address of the requested byte length, or "no matching IP found"
      exactly when no address has that length. */
  function LookupIP(answer: Result<seq<Address>>, want: nat): (r: Result<string>)
    ensures answer.Err? ==> r == Err(answer.error)
    ensures answer.Ok? ==> r.Ok? || r.error == NoMatchingIP
    ensures answer.Ok? && r.Err? ==> r.error.Message() == "no matching IP found"
    ensures answer.Ok? ==>
      (r.Err? <==> forall j :: 0 <= j < |answer.value| ==> |answer.value[j]| != want)
    ensures answer.Ok? && r.Ok? ==>
      exists k: nat :: IsFirstOfLength(answer.value, want, k) && r.value == IpText.String(answer.value[k])
  {
    match answer
    case Err(e) => Err(e)
    case Ok(ips) =>
      var k := FirstOfLength(ips, want);
      if k < |ips| then Ok(IpText.String(ips[k])) else Err(NoMatchingIP)
  }

  /** The selected address is unique: any first address of the requested
      length is the one `lookupIP` formats. */
  lemma LookupPicksFirst(ips: seq<Address>, want: nat, k: nat)
    requires IsFirstOfLength(ips, want, k)
    ensures LookupIP(Ok(ips), want) == Ok(IpText.String(ips[k]))
  {
    FirstOfLengthUnique(ips, want, k);
  }

  /** With 4-byte addresses requested, the selected text never contains a
      colon; with 16-byte ones it does unless the address is IPv4 carried
      in IPv6, whose text is dotted. */
  lemma LookupTextColon(ips: seq<Address>, want: nat)
    requires LookupIP(Ok(ips), want).Ok?
    ensures var k := FirstOfLength(ips, want);
      ':' in LookupIP(Ok(ips), want).value <==> want == IpText.IPv6Len && !IpText.IsV4InV6(ips[k])
  {
    IpText.StringHasColon(ips[FirstOfLength(ips, want)]);
  }

  /** The address the resolver's dialer sends the query to: the server text
      and ":53", with no brackets added. */
  function ResolverAddress(server: string): string
  {
    server + ":" + Text.Decimal(DnsPort)
  }

  /** A host name or IPv4 server is read back by the dialer with port 53. */
  lemma ResolverAddressPlain(server: string)
    requires ':' !in server && '[' !in server && ']' !in server
    ensures HostPort.Split(ResolverAddress(server)) == Some((server, "53"))
  {
    assert Text.Decimal(DnsPort) == "53";
    assert ResolverAddress(server) == HostPort.Join(server, DnsPort);
    HostPort.SplitJoin(server, DnsPort);
  }

  /** An IPv6 server written in brackets is read back without them. */
  lemma ResolverAddressBracketed(host: string)
    requires '[' !in host && ']' !in host
    ensures HostPort.Split(ResolverAddress("[" + host + "]")) == Some((host, "53"))
  {
    assert Text.Decimal(DnsPort) == "53";
    assert ResolverAddress("[" + host + "]") == "[" + host + "]:" + "53";
    HostPort.SplitBracketed(host, "53");
  }

  /** An IPv6 server written without brackets ("::1") yields an address the
      dialer rejects (too many colons): every DNS query that goes through
      that server's dialer fails. */
  lemma ResolverAddressBareIPv6(server: string)
    requires ':' in server && '[' !in server
    ensures HostPort.Split(ResolverAddress(server)).None?
  {
    var hp := ResolverAddress(server);
    assert Text.Decimal(DnsPort) == "53";
    var i := HostPort.LastIndex(hp, ':');
    assert hp[|server|] == ':';
    assert i == |server|;
    assert hp[..i] == server;
    assert hp[0] == server[0];
  }
}

=== FILE: probe.dfy ===
/**
  The TCP latency probe `tcping` (main.go:99-131). The network and the clock
  are an oracle: the outcome of each of the four dials is given up front as
  `Connected(nanos)` (the time `time.Since` measured) or `Refused(error)`.
  The probe dials the formatted destination, stops at the first refused
  dial and returns its error, pauses only between two attempts, and on
  full success averages the four durations with truncating division.
 */
module Probe {
  import opened Common
  import HostPort

  /** The fixed attempt count, the pause between attempts and the probed port. */
  const Attempts: nat := 4
  const PauseMillis: nat := 600
  const Port: nat := 80

  datatype DialOutcome = Connected(nanos: nat) | Refused(error: Error)

  /** One outcome per attempt the probe may make. */
  type DialScript = s: seq<DialOutcome> | |s| == Attempts
    witness [Connected(0), Connected(0), Connected(0), Connected(0)]

  datatype ProbeOutcome = ProbeOutcome(result: Result<nat>, trace: seq<Event>)

  /** Index of the first refused dial, or `|dials|` when every dial connected. */
  function FirstFailure(dials: seq<DialOutcome>): (k: nat)
    ensures k <= |dials|
    ensures forall j :: 0 <= j < k ==> dials[j].Connected?
    ensures k < |dials| ==> dials[k].Refused?
    decreases |dials|
  {
    if |dials| == 0 || dials[0].Refused? then 0 else 1 + FirstFailure(dials[1..])
  }

  function Nanos(d: DialOutcome): nat
  {
    if d.Connected? then d.nanos else 0
  }

  /** Sum of the measured durations. */
  function Total(dials: seq<DialOutcome>): nat
    decreases |dials|
  {
    if |dials| == 0 then 0 else Total(dials[..|dials| - 1]) + Nanos(dials[|dials| - 1])
  }

  /** The total of four connected dials is the sum of their durations. */
  lemma TotalOfFour(dials: DialScript)
    ensures Total(dials) == Nanos(dials[0]) + Nanos(dials[1]) + Nanos(dials[2]) + Nanos(dials[3])
  {
    assert dials[..1][..0] == [];
    assert Total(dials[..1]) == Nanos(dials[0]);
    assert dials[..2][..1] == dials[..1];
    assert Total(dials[..2]) == Total(dials[..1]) + Nanos(dials[1]);
    assert dials[..3][..2] == dials[..2];
    assert Total(dials[..3]) == Total(dials[..2]) + Nanos(dials[2]);
    assert dials[..3] == dials[..|dials| - 1];
  }

  /** Attempt `i`: a dial, then a pause unless it is the last attempt. */
  function Round(address: string, i: nat): seq<Event>
  {
    [Dial(address)] + (if i < Attempts - 1 then [Pause(PauseMillis)] else [])
  }

  /** The trace of the first `n` attempts when all of them connect. */
  function Rounds(address: string, n: nat): seq<Event>
    decreases n
  {
    if n == 0 then [] else Rounds(address, n - 1) + Round(address, n - 1)
  }

  /** The fail-fast probe of `address`: the reference definition. */
  function Probe(address: string, dials: DialScript): ProbeOutcome
  {
    var k := FirstFailure(dials);
    if k < Attempts then ProbeOutcome(Err(dials[k].error), Rounds(address, k) + [Dial(address)])
    else ProbeOutcome(Ok(Total(dials) / Attempts), Rounds(address, Attempts))
  }

  /** `tcping(ip, port)`: the loop as written, shown to agree with `Probe`
      on the destination `HostPort.Join` formats. */
  method Tcping(ip: string, port: nat, dials: DialScript) returns (r: Result<nat>, trace: seq<Event>)
    ensures ProbeOutcome(r, trace) == Probe(HostPort.Join(ip, port), dials)
  {
    var address := HostPort.Join(ip, port);
    var total := 0;
    trace := [];
    var i := 0;
    while i < Attempts
      invariant 0 <= i <= Attempts
      invariant forall j :: 0 <= j < i ==> dials[j].Connected?
      invariant total == Total(dials[..i])
      invariant trace == Rounds(address, i)
    {
      trace := trace + [Dial(address)];
      if dials[i].Refused? {
        assert FirstFailure(dials) == i;
        r := Err(dials[i].error);
        return;
      }
      assert dials[..i + 1][..i] == dials[..i];
      total := total + dials[i].nanos;
      if i < Attempts - 1 {
        trace := trace + [Pause(PauseMillis)];
      }
      i := i + 1;
    }
    assert dials[..Attempts] == dials;
    r := Ok(total / Attempts);
  }

  /** Dials to `address` at even positions, pauses at odd ones, ending with a dial. */
  ghost predicate Alternating(trace: seq<Event>, address: string)
  {
    && |trace| % 2 == 1
    && forall p :: 0 <= p < |trace| ==> trace[p] == (if p % 2 == 0 then Dial(address) else Pause(PauseMillis))
  }

  lemma {:induction false} RoundsShape(address: string, n: nat)
    requires n <= Attempts
    ensures |Rounds(address, n)| == (if n < Attempts then 2 * n else 2 * n - 1)
    ensures forall p :: 0 <= p < |Rounds(address, n)| ==>
      Rounds(address, n)[p] == (if p % 2 == 0 then Dial(address) else Pause(PauseMillis))
    decreases n
  {
    if n > 0 {
      RoundsShape(address, n - 1);
    }
  }

  lemma {:induction false} AlternatingCounts(trace: seq<Event>, address: string)
    requires Alternating(trace, address)
    ensures Count(trace, DialTag) == (|trace| + 1) / 2
    ensures Count(trace, PauseTag) == |trace| / 2
    ensures forall tag :: tag != DialTag && tag != PauseTag ==> Count(trace, tag) == 0
    decreases |trace|
  {
    var t1 := trace[1..];
    if |trace| > 1 {
      var rest := trace[2..];
      assert forall p :: 0 <= p < |rest| ==> rest[p] == trace[p + 2];
      AlternatingCounts(rest, address);
      assert t1[1..] == rest;
      forall tag | tag != DialTag && tag != PauseTag ensures Count(trace, tag) == 0 {
        assert Count(t1, tag) == Count(rest, tag);
      }
    } else {
      assert |t1| == 0;
    }
  }

  /** The probe's trace: `m` dials to `address` with a pause between each two,
      where `m` is the attempt that failed (1-based) or 4 when none did. */
  lemma ProbeTraceShape(address: string, dials: DialScript)
    ensures var m := if FirstFailure(dials) < Attempts then FirstFailure(dials) + 1 else Attempts;
      && Alternating(Probe(address, dials).trace, address)
      && |Probe(address, dials).trace| == 2 * m - 1
  {
    var k := FirstFailure(dials);
    if k < Attempts {
      RoundsShape(address, k);
    } else {
      RoundsShape(address, Attempts);
    }
  }

  /** Fail-fast: the first refused dial ends the probe with its error after
      exactly that many dials (never more than four) and one pause fewer. */
  lemma ProbeFailFast(address: string, dials: DialScript, k: nat)
    requires k < Attempts && dials[k].Refused?
    requires forall j :: 0 <= j < k ==> dials[j].Connected?
    ensures Probe(address, dials).result == Err(dials[k].error)
    ensures Count(Probe(address, dials).trace, DialTag) == k + 1 <= Attempts
    ensures Count(Probe(address, dials).trace, PauseTag) == k
  {
    assert FirstFailure(dials) == k;
    ProbeTraceShape(address, dials);
    AlternatingCounts(Probe(address, dials).trace, address);
  }

  /** When all four dials connect: four dials, three pauses, and the sum of
      the four durations divided by four, truncated. */
  lemma ProbeSuccess(address: string, dials: DialScript)
    requires forall j :: 0 <= j < Attempts ==> dials[j].Connected?
    ensures var sum := dials[0].nanos + dials[1].nanos + dials[2].nanos + dials[3].nanos;
      && Probe(address, dials).result.Ok?
      && 4 * Probe(address, dials).result.value <= sum < 4 * Probe(address, dials).result.value + 4
    ensures Count(Probe(address, dials).trace, DialTag) == Attempts
    ensures Count(Probe(address, dials).trace, PauseTag) == Attempts - 1
  {
    assert FirstFailure(dials) == Attempts;
    TotalOfFour(dials);
    ProbeTraceShape(address, dials);
    AlternatingCounts(Probe(address, dials).trace, address);
  }

  /** The probe fails exactly when some dial is refused. */
  lemma ProbeFailsIffRefused(address: string, dials: DialScript)
    ensures Probe(address, dials).result.Err? <==> exists j :: 0 <= j < Attempts && dials[j].Refused?
  {
  }

  /** Four connections of 10, 12, 11 and 13 ms average 11.5 ms. */
  lemma ExampleAverage(address: string)
    ensures Probe(address, [Connected(10_000_000), Connected(12_000_000), Connected(11_000_000), Connected(13_000_000)]).result
      == Ok(11_500_000)
  {
    var dials: DialScript := [Connected(10_000_000), Connected(12_000_000), Connected(11_000_000), Connected(13_000_000)];
    assert FirstFailure(dials) == 4;
    TotalOfFour(dials);
  }

  /** A refused third attempt means three dials and no fourth. */
  lemma ExampleThirdRefused(address: string, e: Error)
    ensures var p := Probe(address, [Connected(1), Connected(1), Refused(e), Connected(1)]);
      p.result == Err(e) && Count(p.trace, DialTag) == 3
  {
    ProbeFailFast(address, [Connected(1), Connected(1), Refused(e), Connected(1)], 2);
  }
}

=== FILE: text.dfy ===
/**
  The string operations the tool borrows from Go: `strings.Split` on a
  one-character separator with its inverse `strings.Join`, and the decimal
  and hexadecimal digit strings `%d` and the address formatter write.
 */
module Text {

  /** Go's `strings.Join(parts, string(sep))`. */
  function Join(parts: seq<string>, sep: char): string
    decreases |parts|
  {
    if |parts| == 0 then ""
    else if |parts| == 1 then parts[0]
    else parts[0] + [sep] + Join(parts[1..], sep)
  }

  /** Joining two or more pieces: the first, a separator, the rest joined. */
  lemma JoinCons(parts: seq<string>, sep: char)
    requires |parts| >= 2
    ensures Join(parts, sep) == parts[0] + [sep] + Join(parts[1..], sep)
  {
  }

  /** Regrouping a concatenation of five strings. */
  lemma Regroup(c: string, a: string, d: string, j: string, t: string)
    ensures c + a + (d + j + t) == c + (a + d + j) + t
  {
  }

  /** Empty strings on either side of a concatenation drop out. */
  lemma DropEmpty(a: string)
    ensures "" + a + "" == a
  {
  }

  lemma Assoc(a: string, b: string, c: string)
    ensures a + (b + c) == a + b + c
  {
  }

  /** Go's `strings.Split(s, string(sep))`: the pieces between separators,
      empty pieces included; the empty string yields one empty piece. */
  function Split(s: string, sep: char): (parts: seq<string>)
    ensures |parts| >= 1
    ensures forall i :: 0 <= i < |parts| ==> sep !in parts[i]
    ensures Join(parts, sep) == s
    decreases |s|
  {
    if |s| == 0 then [""]
    else
      var rest := Split(s[1..], sep);
      if s[0] == sep then
        assert ([""] + rest)[1..] == rest;
        [""] + rest
      else
        var parts := [[s[0]] + rest[0]] + rest[1..];
        assert parts[1..] == rest[1..];
        assert s == [s[0]] + s[1..];
        parts
  }

  /** Number of occurrences of `c` in `s`. */
  function Occurrences(s: string, c: char): nat
    decreases |s|
  {
    if |s| == 0 then 0 else (if s[0] == c then 1 else 0) + Occurrences(s[1..], c)
  }

  /** Splitting yields one piece more than there are separators. */
  lemma {:induction false} SplitLength(s: string, sep: char)
    ensures |Split(s, sep)| == Occurrences(s, sep) + 1
    decreases |s|
  {
    if |s| > 0 {
      SplitLength(s[1..], sep);
    }
  }

  /** Splitting a piece free of the separator gives that piece back. */
  lemma {:induction false} SplitPiece(a: string, sep: char)
    requires sep !in a
    ensures Split(a, sep) == [a]
    decreases |a|
  {
    if |a| > 0 {
      SplitPiece(a[1..], sep);
      assert [a[0]] + a[1..] == a;
    }
  }

  /** A leading piece and its separator split off as one piece. */
  lemma {:induction false} SplitFirst(a: string, sep: char, b: string)
    requires sep !in a
    ensures Split(a + [sep] + b, sep) == [a] + Split(b, sep)
    decreases |a|
  {
    if |a| == 0 {
      assert a + [sep] + b == [sep] + b;
      assert ([sep] + b)[1..] == b;
    } else {
      var s := a + [sep] + b;
      assert s[1..] == a[1..] + [sep] + b;
      SplitFirst(a[1..], sep, b);
      assert [a[0]] + a[1..] == a;
    }
  }

  /** Split undoes Join whenever no piece contains the separator. */
  lemma {:induction false} SplitJoin(parts: seq<string>, sep: char)
    requires |parts| >= 1
    requires forall i :: 0 <= i < |parts| ==> sep !in parts[i]
    ensures Split(Join(parts, sep), sep) == parts
    decreases |parts|
  {
    if |parts| == 1 {
      SplitPiece(parts[0], sep);
    } else {
      SplitJoin(parts[1..], sep);
      SplitFirst(parts[0], sep, Join(parts[1..], sep));
      assert [parts[0]] + parts[1..] == parts;
    }
  }

  /** A character other than the separator that no piece contains does not
      occur in the joined text either. */
  lemma {:induction false} JoinExcludes(parts: seq<string>, sep: char, c: char)
    requires c != sep
    requires forall i :: 0 <= i < |parts| ==> c !in parts[i]
    ensures c !in Join(parts, sep)
    decreases |parts|
  {
    if |parts| > 1 {
      JoinExcludes(parts[1..], sep, c);
    }
  }

  predicate IsDigit(c: char)
  {
    '0' <= c <= '9'
  }

  predicate IsLowerHexDigit(c: char)
  {
    IsDigit(c) || 'a' <= c <= 'f'
  }

  function DigitChar(d: nat): (c: char)
    requires d < 10
    ensures IsDigit(c)
  {
    "0123456789"[d]
  }

  function HexDigitChar(d: nat): (c: char)
    requires d < 16
    ensures IsLowerHexDigit(c)
  {
    "0123456789abcdef"[d]
  }

  /** The decimal text `%d` and `strconv.Itoa` produce for a non-negative number. */
  function Decimal(n: nat): (s: string)
    ensures 1 <= |s|
    ensures forall i :: 0 <= i < |s| ==> IsDigit(s[i])
    decreases n
  {
    if n < 10 then [DigitChar(n)] else Decimal(n / 10) + [DigitChar(n % 10)]
  }

  /** Reads a string of decimal digits back as a number. */
  function ParseDecimal(s: string): nat
    requires forall i :: 0 <= i < |s| ==> IsDigit(s[i])
    decreases |s|
  {
    if |s| == 0 then 0
    else
      assert IsDigit(s[|s| - 1]);
      ParseDecimal(s[..|s| - 1]) * 10 + ((s[|s| - 1] as int) - ('0' as int))
  }

  /** Decimal text reads back as the number it was written from. */
  lemma {:induction false} DecimalRoundTrip(n: nat)
    ensures ParseDecimal(Decimal(n)) == n
    decreases n
  {
    var s := Decimal(n);
    if n >= 10 {
      DecimalRoundTrip(n / 10);
      assert s[..|s| - 1] == Decimal(n / 10);
    }
  }

  /** Lower-case hexadecimal without leading zeros (Go's `appendHex` for
      an IPv6 group). */
  function Hex(n: nat): (s: string)
    ensures 1 <= |s|
    ensures forall i :: 0 <= i < |s| ==> IsLowerHexDigit(s[i])
    decreases n
  {
    if n < 16 then [HexDigitChar(n)] else Hex(n / 16) + [HexDigitChar(n % 16)]
  }

  /** Two lower-case hexadecimal digits per byte, leading zero kept. */
  function HexBytes(bs: seq<int>): (s: string)
    requires forall i :: 0 <= i < |bs| ==> 0 <= bs[i] < 256
    ensures |s| == 2 * |bs|
    ensures forall i :: 0 <= i < |s| ==> IsLowerHexDigit(s[i])
    decreases |bs|
  {
    if |bs| == 0 then ""
    else [HexDigitChar(bs[0] / 16), HexDigitChar(bs[0] % 16)] + HexBytes(bs[1..])
  }
}
